=== FILE: README.md ===
# caper parser cursor/undo-log engine, in Dafny

This project models the backtracking engine of caper's `Parser` base class
(`libs/caper/parsers/base.py`). A grammar walks a two-level token hierarchy:
a list of closures, each holding a list of fragments. It advances two integer
cursors speculatively (`next_closure`, `next_fragment`, guarded by
`closure_available` and `fragment_available`). Then it either `commit`s, which
drops the history, or `rewind`s, which replays the history backwards to the
last commit.

The state is an immutable datatype `Engine.Parser`. It holds the bound closures
(None before `setup`), the closures wrapped by the result's head nodes, the two
cursors, and the history. The history is a sequence of tagged deltas,
`Frag(d)` or `Clos(d)`. Every cursor and history method of the class
(`reset`, `setup`, `next_closure`, `closure_available`, `next_fragment`,
`fragment_available`, `rewind`, `commit`) is one pure function on that state. The central facts proved are these:

- `rewind` undoes the log most recent entry first. That equals subtracting the
  per-tag sums of the deltas (`History.UndoAllSubtractsSums`).
- A checkpoint invariant (`Checkpoint.Tracks`) holds from `setup` and `commit`
  and is kept by every advance.
- Hence, after any sequence of calls that does not raise, `rewind` lands on the
  position of the last `commit`/`rewind` (`Checkpoint.RewindUndoesRun`).

Two behaviours of the code are kept as they are:

- The first closure step, from -1 to 0, is never logged. So a checkpoint taken
  at closure -1 comes back as closure 0 once a closure has been entered
  (`Checkpoint.Restored`).
- Python list indexing accepts negative indices. A closure cursor of -1
  therefore makes `fragment_available` and `next_fragment` read the last
  closure. The model says so literally (`Tokens.At`). Reporting "no current
  closure, so no fragment" would be the tidier reading, but the code does not
  do that, and the model follows the code.

Python's IndexError (and the TypeError of using the parser before `setup`) is
a caller error that the engine does not recover from. It is modelled as a
precondition: `Engine.CanIndexNextClosure` and `Engine.CanIndexNextFragment` are
exactly the conditions under which the lookups in `next_closure` and
`next_fragment` succeed.

Files: `wrappers.dfy` (`Option`), `tokens.dfy` (closures, Python indexing), `history.dfy` (log entries,
sums, reverse-order undo), `engine.dfy` (state and operations),
`checkpoint.dfy` (the commit/rewind invariant and runs of calls),
`availability.dfy` (what the availability queries promise), and
`scenarios.dfy` (concrete walks over two closures).

## Model

| member | source | states |
|---|---|---|
| Engine.Reset | libs/caper/parsers/base.py:36-43 | afterwards no closures are bound, the result has no heads, both cursors are -1 and the history is empty, whatever the state was before |
| Engine.Setup | libs/caper/parsers/base.py:45-53 | needs a non-empty closure list (it reads `closures[0]`); leaves the reset cursor/history state, binds the closures and seeds the result heads with the first closure |
| Engine.NextClosure | libs/caper/parsers/base.py:66-77 | closure cursor up by exactly 1, fragment cursor back to -1, returns the closure at the new index, logs `Frag(-1 - old fragment cursor)` and then `Clos(1)` only when the new closure cursor is not 0 |
| Engine.UndoNextClosure | libs/caper/parsers/base.py:66-77 | undoing only the entries `next_closure` logged restores the old fragment cursor exactly and the old closure cursor, except that -1 comes back as 0 |
| Engine.ClosureAvailable | libs/caper/parsers/base.py:79-80 | in a reachable state, another closure follows exactly when the lookup in `next_closure` would not raise |
| Engine.NextFragment | libs/caper/parsers/base.py:86-95 | closure cursor unchanged, fragment cursor up by 1, logs `Frag(1)`, returns that fragment of the current closure |
| Engine.UndoNextFragment | libs/caper/parsers/base.py:86-95 | undoing the entry `next_fragment` logged restores both cursors |
| Engine.FragmentAvailable | libs/caper/parsers/base.py:97-100 | true only when `closure_available` is; while another closure follows in a reachable state, true exactly when `next_fragment` would not raise |
| Engine.Commit | libs/caper/parsers/base.py:114-116 | the history becomes empty and neither cursor moves |
| Engine.Rewind | libs/caper/parsers/base.py:102-112 | the history becomes empty and each cursor loses exactly the total delta logged for it; closures and heads are untouched |
| History.Undo | libs/caper/parsers/base.py:105-108 | a fragment entry moves only the fragment cursor and a closure entry only the closure cursor, each back by its delta |
| History.UndoAllSubtractsSums | libs/caper/parsers/base.py:103-108 | replaying the log in reverse order equals subtracting the per-tag sums of its deltas |
| History.UndoAllAppend | libs/caper/parsers/base.py:103-108 | undoing a log is undoing its newer part first and then its older part |
| Checkpoint.Restored | libs/caper/parsers/base.py:70-74 | reference definition of the landing position, which `RewindReturnsToCheckpoint` and `RewindUndoesRun` prove `rewind` reaches: the checkpoint's fragment cursor, and its closure cursor unless the checkpoint was at -1 and a closure has since been entered, when it is 0 |
| Checkpoint.SetupStartsCheckpoint | libs/caper/parsers/base.py:45-53 | after `setup` the invariant holds with checkpoint (-1, -1) |
| Checkpoint.CommitStartsCheckpoint | libs/caper/parsers/base.py:114-116 | after `commit` the invariant holds with the current cursors as checkpoint |
| Checkpoint.NextClosureKeepsCheckpoint | libs/caper/parsers/base.py:66-77 | `next_closure` preserves the checkpoint invariant, thanks to the computed fragment delta |
| Checkpoint.NextFragmentKeepsCheckpoint | libs/caper/parsers/base.py:86-95 | `next_fragment` preserves the checkpoint invariant |
| Checkpoint.RewindReturnsToCheckpoint | libs/caper/parsers/base.py:102-112 | `rewind` lands exactly on the checkpoint (closure -1 as 0 once a closure was entered) and that position becomes the new checkpoint |
| Checkpoint.RewindIsIdempotent | libs/caper/parsers/base.py:102-116 | a second `rewind`, or a `rewind` straight after `commit`, changes nothing |
| Checkpoint.RunKeepsCheckpoint | libs/caper/parsers/base.py:66-116 | any sequence of calls that does not raise keeps the invariant against the checkpoint of its last `commit`/`rewind` |
| Checkpoint.RewindUndoesRun | libs/caper/parsers/base.py:66-116 | from a committed state, after any sequence of calls, `rewind` restores the position of the last `commit`/`rewind` in it (or the start) |
| Checkpoint.AdvancesMoveForward | libs/caper/parsers/base.py:66-95 | over advances only, the closure cursor grows by exactly the number of `next_closure` calls and the checkpoint does not change |
| Checkpoint.RewindUndoesAdvances | libs/caper/parsers/base.py:66-112 | after any mix of `next_closure`/`next_fragment` from a committed state, `rewind` restores the committed cursors, and the closure cursor ends no earlier than it started |
| Checkpoint.AdvancesNeverGoBack | libs/caper/parsers/base.py:66-95 | over advances only, every call of the run succeeds and moves the closure cursor by exactly one (`next_closure`) or not at all (`next_fragment`), so it never goes backwards at any step |
| Checkpoint.RunSplit | libs/caper/parsers/base.py:66-116 | running two sequences of calls back to back is running the first and, if it did not raise, the second from where it ended |
| Availability.ClosureAvailableIffNextClosureDefined | libs/caper/parsers/base.py:66-80 | in a reachable state `closure_available` holds exactly when `next_closure` does not raise |
| Availability.FragmentAvailableIffNextFragmentDefined | libs/caper/parsers/base.py:86-100 | while another closure follows, `fragment_available` holds exactly when `next_fragment` does not raise |
| Availability.FragmentAvailableNeedsNextClosure | libs/caper/parsers/base.py:97-100 | `fragment_available` implies `closure_available` |
| Availability.LastClosureHidesFragments | libs/caper/parsers/base.py:79-100 | on the last closure both queries are false and `next_closure` raises, yet `next_fragment` still succeeds while fragments remain |
| Availability.BeforeFirstClosureConsultsLast | libs/caper/parsers/base.py:97-100 | at closure cursor -1, `fragment_available` reads the last closure's fragments |
| Availability.NextClosureResetsFragments | libs/caper/parsers/base.py:66-100 | after `next_closure`, `fragment_available` says whether the new closure has any fragment (and is not the last) |
| Availability.FragmentsExhausted | libs/caper/parsers/base.py:86-100 | on the last fragment of the current closure (the last closure when the closure cursor is -1), neither `fragment_available` nor `next_fragment` goes further |
| Scenarios.WalkThroughC0 | libs/caper/parsers/base.py:66-95 | on closures [f0, f1] and [f2], the first `next_closure` returns C0 and the next two `next_fragment` calls return f0 and f1 |
| Scenarios.RewindWithinClosure | libs/caper/parsers/base.py:102-112 | after f0 and f1, `rewind` gives (0, -1) and the next `next_fragment` returns f0 again |
| Scenarios.RewindAcrossClosures | libs/caper/parsers/base.py:70-74 | committed at (0, 1), `next_closure` logs `[Frag(-2), Clos(1)]`, `next_fragment` returns f2, and `rewind` gives back (0, 1) |
| Scenarios.UnitDeltaLosesFragments | libs/caper/parsers/base.py:70-71 | had `next_closure` logged the fragment reset as `Frag(-1)`, undoing it would return fragment cursor 0 from every state, so it restores the old cursor exactly when that was 0 |
| Scenarios.UnitDeltaInScenario | libs/caper/parsers/base.py:70-74 | in the cross-closure walk, the unit-delta log rewinds to (0, 0) where the real log gives (0, 1) |
| Scenarios.NextFragmentBeforeFirstClosure | libs/caper/parsers/base.py:86-100 | straight after `setup`, `next_fragment` returns the last closure's first fragment and `fragment_available` holds |

## Left out

- Logging calls (`Logr.debug`): diagnostics only.
- The fragment matcher built in `__init__`, and the match cache: the matcher is external, and the engine only ever clears the cache.
- `capture_fragment` and `capture_closure`: they only delegate to the capture-group subsystem, which is not part of this model. The result tree is reduced to the list of closures its head nodes wrap.
- `run`: an abstract hook that only raises `NotImplementedError`.
- The `else: raise NotImplementedError()` branch of `rewind`: it is unreachable because a history entry has exactly two constructors.
- The state a failed call leaves behind. `next_closure` bumps the closure cursor before its lookup raises. `next_fragment` raises before any change when the closure lookup fails, but bumps the fragment cursor before a failing fragment lookup. `setup([])` has already reset the parser and bound the empty list when `closures[0]` raises. All three are modelled only under the precondition that their lookups succeed.
- Engine.Reset: the fresh `CaperResult` is modelled only through its empty list of heads.

=== FILE: availability.dfy ===
/**
 How the two availability queries relate to the advances they guard. On every
 closure but the last, `fragment_available` is exactly the condition under which
 `next_fragment` does not raise; on the last closure it is always false, even
 though `next_fragment` still works there; before the first closure it looks at
 the last closure, through Python's negative indexing.
 */
module Availability {
  import opened Wrappers
  import opened Tokens
  import opened History
  import opened Engine

  /** In a reachable state `closure_available` is exactly the condition under
      which `next_closure` does not raise. */
  lemma ClosureAvailableIffNextClosureDefined<C, F>(p: Parser<C, F>)
    requires WellFormed(p)
    ensures ClosureAvailable(p) <==> CanIndexNextClosure(p)
  {
  }

  /** Whenever another closure follows, `fragment_available` is exactly the
      condition under which `next_fragment` does not raise. */
  lemma FragmentAvailableIffNextFragmentDefined<C, F>(p: Parser<C, F>)
    requires WellFormed(p) && ClosureAvailable(p)
    ensures FragmentAvailable(p) <==> CanIndexNextFragment(p)
  {
  }

  /** `fragment_available` implies `closure_available`. */
  lemma FragmentAvailableNeedsNextClosure<C, F>(p: Parser<C, F>)
    requires WellFormed(p)
    ensures FragmentAvailable(p) ==> ClosureAvailable(p)
  {
  }

  /** On the last closure neither query reports anything available and
      `next_closure` would raise, yet `next_fragment` still succeeds while the
      closure has fragments left. */
  lemma LastClosureHidesFragments<C, F>(p: Parser<C, F>)
    requires WellFormed(p) && p.closurePos == p.Count() - 1
    ensures !ClosureAvailable(p) && !FragmentAvailable(p)
    ensures !CanIndexNextClosure(p)
    ensures p.fragmentPos + 1 < |p.closures.value[p.closurePos].fragments| ==> CanIndexNextFragment(p)
  {
  }

  /** Before the first closure is entered, `fragment_available` consults the
      LAST closure (Python reads index -1 from the end); with a single closure
      that is the first one. */
  lemma BeforeFirstClosureConsultsLast<C, F>(p: Parser<C, F>)
    requires WellFormed(p) && p.closurePos == -1
    ensures FragmentAvailable(p) <==> p.fragmentPos + 1 < |p.closures.value[p.Count() - 1].fragments|
  {
  }

  /** Right after `next_closure` the fragment cursor is before the new closure's
      first fragment, so `fragment_available` reports whether that closure has
      any fragment at all (and another closure follows it). */
  lemma NextClosureResetsFragments<C, F>(p: Parser<C, F>)
    requires WellFormed(p) && ClosureAvailable(p)
    ensures WellFormed(NextClosure(p).0)
    ensures var q := NextClosure(p).0;
            FragmentAvailable(q)
            <==> ClosureAvailable(q) && 0 < |p.closures.value[p.closurePos + 1].fragments|
  {
  }

  /** Once the fragment cursor sits on the current closure's last fragment,
      neither `fragment_available` nor `next_fragment` lets it go further. The
      current closure is read with Python indexing, so this covers closure
      cursor -1 too, where both read the last closure. */
  lemma FragmentsExhausted<C, F>(p: Parser<C, F>)
    requires WellFormed(p)
    requires p.fragmentPos + 1 == |At(p.closures.value, p.closurePos).fragments|
    ensures !FragmentAvailable(p) && !CanIndexNextFragment(p)
  {
  }
}

=== FILE: checkpoint.dfy ===
/**
 The commit/rewind protocol. A checkpoint is the cursor pair as of the last
 `commit` (or `setup`); the invariant `Tracks` says that replaying the undo log
 from the current state lands back on it. Every advance keeps the invariant,
 `commit` and `rewind` start a new checkpoint, and so `rewind` after any run of
 calls returns to the checkpoint of the last `commit`/`rewind` in that run.
 */
module Checkpoint {
  import opened Wrappers
  import opened Tokens
  import opened History
  import opened Engine

  /** Where `rewind` brings the cursors back to, given the checkpoint `cp` and the
      current closure cursor: the checkpoint itself, except that a checkpoint
      taken before the first closure comes back at closure 0 once a closure has
      been entered, since the step from -1 to 0 is never logged. */
  function Restored(cp: Cursor, closurePos: int): (r: Cursor)
    ensures r.fragmentPos == cp.fragmentPos
    ensures (closurePos == -1 || cp.closurePos != -1) ==> r == cp
    ensures (closurePos != -1 && cp.closurePos == -1) ==> r.closurePos == 0
  {
    if cp.closurePos == -1 && closurePos != -1 then Cursor(0, cp.fragmentPos) else cp
  }

  /** `cp` is the checkpoint of `p`: it lies no later than p's closure, and
      replaying p's log lands on it (up to the unlogged first closure step). */
  predicate Tracks<C, F>(p: Parser<C, F>, cp: Cursor) {
    && WellFormed(p)
    && -1 <= cp.closurePos <= p.closurePos
    && -1 <= cp.fragmentPos
    && UndoAll(p.Here(), p.history) == Restored(cp, p.closurePos)
  }

  /** After `setup` the checkpoint is the starting position (-1, -1). */
  lemma SetupStartsCheckpoint<C, F>(p: Parser<C, F>, closures: seq<Closure<C, F>>)
    requires |closures| > 0
    ensures Tracks(Setup(p, closures), Cursor(-1, -1))
  {
  }

  /** After `commit` the current cursors are the checkpoint. */
  lemma CommitStartsCheckpoint<C, F>(p: Parser<C, F>)
    requires WellFormed(p)
    ensures Tracks(Commit(p), p.Here())
  {
  }

  /** `next_closure` keeps the checkpoint. The fragment delta it logs is what
      makes this hold: it restores however many fragments had been consumed. */
  lemma NextClosureKeepsCheckpoint<C, F>(p: Parser<C, F>, cp: Cursor)
    requires Tracks(p, cp) && CanIndexNextClosure(p)
    ensures Tracks(NextClosure(p).0, cp)
  {
    var q := NextClosure(p).0;
    UndoNextClosure(p);
    var added := q.history[|p.history|..];
    assert q.history == p.history + added;
    UndoAllAppend(q.Here(), p.history, added);
    var back := UndoAll(q.Here(), added);
    assert UndoAll(q.Here(), q.history) == UndoAll(back, p.history);
    if p.closurePos == -1 {
      UndoAllSubtractsSums(back, p.history);
      UndoAllSubtractsSums(p.Here(), p.history);
    } else {
      assert back == p.Here();
    }
  }

  /** `next_fragment` keeps the checkpoint. */
  lemma NextFragmentKeepsCheckpoint<C, F>(p: Parser<C, F>, cp: Cursor)
    requires Tracks(p, cp) && CanIndexNextFragment(p)
    ensures Tracks(NextFragment(p).0, cp)
  {
    var q := NextFragment(p).0;
    UndoAllAppend(q.Here(), p.history, [Frag(1)]);
    assert q.history[|p.history|..] == [Frag(1)];
  }

  /** `rewind` returns to the checkpoint (closure -1 coming back as 0 once a
      closure was entered) and makes that position the new checkpoint. */
  lemma RewindReturnsToCheckpoint<C, F>(p: Parser<C, F>, cp: Cursor)
    requires Tracks(p, cp)
    ensures Rewind(p).Here() == Restored(cp, p.closurePos)
    ensures Tracks(Rewind(p), Rewind(p).Here())
  {
    UndoAllSubtractsSums(p.Here(), p.history);
  }

  /** Rewinding twice is rewinding once, and rewinding straight after a commit
      changes nothing: in both cases the log is already empty. */
  lemma RewindIsIdempotent<C, F>(p: Parser<C, F>)
    ensures Rewind(Rewind(p)) == Rewind(p)
    ensures Rewind(Commit(p)) == Commit(p)
  {
  }

  // ---------------------------------------------------------------------------
  // Runs of calls
  // ---------------------------------------------------------------------------

  /** The calls a grammar makes on the engine. */
  datatype Op = NextClosureOp | NextFragmentOp | CommitOp | RewindOp

  /** The call would not raise in the current state. */
  predicate Enabled<C, F>(p: Parser<C, F>, op: Op) {
    match op
    case NextClosureOp => CanIndexNextClosure(p)
    case NextFragmentOp => CanIndexNextFragment(p)
    case CommitOp => true
    case RewindOp => true
  }

  function Step<C, F>(p: Parser<C, F>, op: Op): Parser<C, F>
    requires Enabled(p, op)
  {
    match op
    case NextClosureOp => NextClosure(p).0
    case NextFragmentOp => NextFragment(p).0
    case CommitOp => Commit(p)
    case RewindOp => Rewind(p)
  }

  /** Performs the calls in order; None when one of them would raise. */
  function Run<C, F>(p: Parser<C, F>, ops: seq<Op>): Option<Parser<C, F>>
    decreases |ops|
  {
    if |ops| == 0 then Some(p)
    else if !Enabled(p, ops[0]) then None
    else Run(Step(p, ops[0]), ops[1..])
  }

  /** The checkpoint after performing `ops` from `p` whose checkpoint is `cp`:
      the position left by the last `commit` or `rewind` among them, or `cp`. */
  function CheckpointAfter<C, F>(p: Parser<C, F>, cp: Cursor, ops: seq<Op>): Cursor
    decreases |ops|
  {
    if |ops| == 0 || !Enabled(p, ops[0]) then cp
    else
      var q := Step(p, ops[0]);
      CheckpointAfter(q, if ops[0].CommitOp? || ops[0].RewindOp? then q.Here() else cp, ops[1..])
  }

  /** Running `a + b` is running `a` and then, if that did not raise, `b`. */
  lemma {:induction false} RunSplit<C, F>(p: Parser<C, F>, a: seq<Op>, b: seq<Op>)
    ensures Run(p, a + b) == if Run(p, a).Some? then Run(Run(p, a).value, b) else None
    decreases |a|
  {
    if |a| > 0 {
      assert (a + b)[0] == a[0];
      if Enabled(p, a[0]) {
        assert (a + b)[1..] == a[1..] + b;
        RunSplit(Step(p, a[0]), a[1..], b);
      }
    } else {
      assert a + b == b;
    }
  }

  /** Every run of calls that does not raise keeps the invariant, against the
      checkpoint of its last `commit`/`rewind`. */
  lemma {:induction false} RunKeepsCheckpoint<C, F>(p: Parser<C, F>, cp: Cursor, ops: seq<Op>)
    requires Tracks(p, cp) && Run(p, ops).Some?
    ensures Tracks(Run(p, ops).value, CheckpointAfter(p, cp, ops))
    decreases |ops|
  {
    if |ops| > 0 {
      var q := Step(p, ops[0]);
      match ops[0]
      case NextClosureOp =>
        NextClosureKeepsCheckpoint(p, cp);
        RunKeepsCheckpoint(q, cp, ops[1..]);
      case NextFragmentOp =>
        NextFragmentKeepsCheckpoint(p, cp);
        RunKeepsCheckpoint(q, cp, ops[1..]);
      case CommitOp =>
        CommitStartsCheckpoint(p);
        RunKeepsCheckpoint(q, q.Here(), ops[1..]);
      case RewindOp =>
        RewindReturnsToCheckpoint(p, cp);
        RunKeepsCheckpoint(q, q.Here(), ops[1..]);
    }
  }

  /** The checkpoint round trip: from any committed reachable state, whatever
      calls follow, `rewind` lands on the position of the last `commit`/`rewind`
      among them (or the starting position), closure -1 coming back as 0. */
  lemma RewindUndoesRun<C, F>(p: Parser<C, F>, ops: seq<Op>)
    requires WellFormed(p) && p.history == [] && Run(p, ops).Some?
    ensures Rewind(Run(p, ops).value).Here()
            == Restored(CheckpointAfter(p, p.Here(), ops), Run(p, ops).value.closurePos)
  {
    assert Tracks(p, p.Here());
    RunKeepsCheckpoint(p, p.Here(), ops);
    RewindReturnsToCheckpoint(Run(p, ops).value, CheckpointAfter(p, p.Here(), ops));
  }

  // ---------------------------------------------------------------------------
  // Runs of advances only
  // ---------------------------------------------------------------------------

  predicate IsAdvance(op: Op) {
    op.NextClosureOp? || op.NextFragmentOp?
  }

  /** Number of closures a run of calls enters. */
  function Entered(ops: seq<Op>): nat {
    if |ops| == 0 then 0 else (if ops[0].NextClosureOp? then 1 else 0) + Entered(ops[1..])
  }

  /** Between two checkpoints the closure cursor only moves forward, one closure
      per `next_closure`, and the checkpoint stays where it was. */
  lemma {:induction false} AdvancesMoveForward<C, F>(p: Parser<C, F>, cp: Cursor, ops: seq<Op>)
    requires Run(p, ops).Some?
    requires forall i :: 0 <= i < |ops| ==> IsAdvance(ops[i])
    ensures Run(p, ops).value.closurePos == p.closurePos + Entered(ops)
    ensures CheckpointAfter(p, cp, ops) == cp
    decreases |ops|
  {
    if |ops| > 0 {
      assert IsAdvance(ops[0]);
      AdvancesMoveForward(Step(p, ops[0]), cp, ops[1..]);
    }
  }

  /** Call `k` of `ops` is reached from `p`, succeeds, and moves the closure
      cursor by one if it is `next_closure` and not at all otherwise. */
  predicate StepMovesClosure<C, F>(p: Parser<C, F>, ops: seq<Op>, k: int) {
    && 0 <= k < |ops|
    && Run(p, ops[..k]).Some? && Run(p, ops[..k + 1]).Some?
    && Run(p, ops[..k + 1]).value.closurePos
       == Run(p, ops[..k]).value.closurePos + (if ops[k].NextClosureOp? then 1 else 0)
  }

  /** Over advances only, no single call moves the closure cursor back: every
      prefix of the run succeeds and the next call leaves the closure cursor
      where it was (`next_fragment`) or one further (`next_closure`). */
  lemma AdvancesNeverGoBack<C, F>(p: Parser<C, F>, ops: seq<Op>)
    requires Run(p, ops).Some?
    requires forall i :: 0 <= i < |ops| ==> IsAdvance(ops[i])
    ensures forall k :: 0 <= k < |ops| ==> StepMovesClosure(p, ops, k)
  {
    forall k | 0 <= k < |ops|
      ensures StepMovesClosure(p, ops, k)
    {
      assert ops[..k] + ops[k..] == ops;
      RunSplit(p, ops[..k], ops[k..]);
      var q := Run(p, ops[..k]).value;
      assert ops[k..][0] == ops[k];
      assert Enabled(q, ops[k]);
      assert ops[..k + 1] == ops[..k] + [ops[k]];
      RunSplit(p, ops[..k], [ops[k]]);
      assert [ops[k]][1..] == [];
      assert IsAdvance(ops[k]);
    }
  }

  /** The checkpoint round trip for advances only: `rewind` returns to the
      committed position, whatever mix of `next_closure`/`next_fragment` ran. */
  lemma RewindUndoesAdvances<C, F>(p: Parser<C, F>, ops: seq<Op>)
    requires WellFormed(p) && p.history == [] && Run(p, ops).Some?
    requires forall i :: 0 <= i < |ops| ==> IsAdvance(ops[i])
    ensures Rewind(Run(p, ops).value).Here() == Restored(p.Here(), Run(p, ops).value.closurePos)
    ensures Run(p, ops).value.closurePos >= p.closurePos
  {
    RewindUndoesRun(p, ops);
    AdvancesMoveForward(p, p.Here(), ops);
  }
}

=== FILE: engine.dfy ===
/**
 The cursor/checkpoint engine of caper's `Parser` base class, as an immutable
 state and one pure transition per method. A grammar advances through closures
 and fragments speculatively, then either commits (drops the undo log) or
 rewinds (replays the log backwards to the last commit).

 Python's IndexError on a bad advance becomes a precondition here. Fields the
 engine only clears or hands on (the matcher, the match cache) are not modelled.
 */
module Engine {
  import opened Wrappers
  import opened Tokens
  import opened History

  /** The parser's state. `closures` is None between `reset` and `setup`;
      `heads` are the closures wrapped by the result's head nodes. */
  datatype Parser<C, F> = Parser(
    closures: Option<seq<Closure<C, F>>>,
    heads: seq<Closure<C, F>>,
    closurePos: int,
    fragmentPos: int,
    history: seq<Entry>)
  {
    /** The two cursors as one value. */
    function Here(): Cursor {
      Cursor(closurePos, fragmentPos)
    }

    /** Number of closures bound by `setup`. */
    function Count(): nat
      requires closures.Some?
    {
      |closures.value|
    }
  }

  /** No closure entered, no fragment entered, nothing to undo. */
  predicate AtStart<C, F>(p: Parser<C, F>) {
    p.closurePos == -1 && p.fragmentPos == -1 && |p.history| == 0
  }

  /** The states a run can reach: a non-empty list of closures is bound, the
      closure cursor is -1 or a valid closure index, and the fragment cursor is
      at least -1. */
  predicate WellFormed<C, F>(p: Parser<C, F>) {
    && p.closures.Some?
    && p.Count() > 0
    && -1 <= p.closurePos < p.Count()
    && -1 <= p.fragmentPos
  }

  // ---------------------------------------------------------------------------
  // Lifecycle
  // ---------------------------------------------------------------------------

  /** `reset`: forgets the closures and the result, puts both cursors before the
      first token and empties the undo log. */
  function Reset<C, F>(p: Parser<C, F>): (r: Parser<C, F>)
    ensures AtStart(r)
    ensures r.closures.None? && r.heads == []
  {
    Parser(None, [], -1, -1, [])
  }

  /** `setup`: resets, binds the closures and seeds the result with one head
      node wrapping the first closure, which is why the list must not be empty. */
  function Setup<C, F>(p: Parser<C, F>, closures: seq<Closure<C, F>>): (r: Parser<C, F>)
    requires |closures| > 0
    ensures AtStart(r) && WellFormed(r)
    ensures r.closures == Some(closures) && r.heads == [closures[0]]
  {
    Reset(p).(closures := Some(closures), heads := [closures[0]])
  }

  // ---------------------------------------------------------------------------
  // Closures
  // ---------------------------------------------------------------------------

  /** `closure_available`: another closure follows the current one. In a
      reachable state that is exactly when `next_closure` would not raise. */
  function ClosureAvailable<C, F>(p: Parser<C, F>): (b: bool)
    requires p.closures.Some?
    ensures WellFormed(p) ==> (b <==> CanIndexNextClosure(p))
  {
    p.closurePos + 1 < p.Count()
  }

  /** `next_closure` indexes `closures[closurePos + 1]` without a check of its
      own: this is the condition under which that lookup does not raise. */
  predicate CanIndexNextClosure<C, F>(p: Parser<C, F>) {
    p.closures.Some? && InRange(p.Count(), p.closurePos + 1)
  }

  /** `next_closure`: enters the next closure and returns it. The fragment cursor
      goes back to -1, and the log records the delta that brings it back to its
      old value; the closure step itself is logged unless it is the first one,
      from -1 to 0. */
  function NextClosure<C, F>(p: Parser<C, F>): (r: (Parser<C, F>, Closure<C, F>))
    requires CanIndexNextClosure(p)
    ensures r.0.closures == p.closures && r.0.heads == p.heads
    ensures r.0.closurePos == p.closurePos + 1
    ensures r.0.fragmentPos == -1
    ensures r.1 == At(p.closures.value, r.0.closurePos)
    ensures r.0.history == p.history + [Frag(-1 - p.fragmentPos)]
                           + (if r.0.closurePos != 0 then [Clos(1)] else [])
  {
    var pos := p.closurePos + 1;
    var logged := p.history + [Frag(-1 - p.fragmentPos)];
    (p.(closurePos := pos, fragmentPos := -1, history := if pos != 0 then logged + [Clos(1)] else logged),
     At(p.closures.value, pos))
  }

  /** Undoing just the entries `next_closure` logged puts both cursors back,
      except that the unlogged first step leaves the closure cursor at 0. */
  lemma UndoNextClosure<C, F>(p: Parser<C, F>)
    requires CanIndexNextClosure(p)
    ensures var q := NextClosure(p).0;
            UndoAll(q.Here(), q.history[|p.history|..])
            == Cursor(if p.closurePos == -1 then 0 else p.closurePos, p.fragmentPos)
  {
    var q := NextClosure(p).0;
    var d := -1 - p.fragmentPos;
    if q.closurePos != 0 {
      assert q.history[|p.history|..] == [Frag(d), Clos(1)];
    } else {
      assert q.history[|p.history|..] == [Frag(d)];
    }
    UndoClosureStep(q.Here(), d);
  }

  // ---------------------------------------------------------------------------
  // Fragments
  // ---------------------------------------------------------------------------

  /** `next_fragment` indexes `closures[closurePos].fragments[fragmentPos + 1]`
      without a check of its own (not even `fragment_available`): this is the
      condition under which both lookups do not raise. */
  predicate CanIndexNextFragment<C, F>(p: Parser<C, F>) {
    && p.closures.Some?
    && InRange(p.Count(), p.closurePos)
    && InRange(|At(p.closures.value, p.closurePos).fragments|, p.fragmentPos + 1)
  }

  /** `next_fragment`: steps to the next fragment of the current closure, logs a
      unit step of the fragment cursor and returns the fragment. */
  function NextFragment<C, F>(p: Parser<C, F>): (r: (Parser<C, F>, F))
    requires CanIndexNextFragment(p)
    ensures r.0.closures == p.closures && r.0.heads == p.heads
    ensures r.0.closurePos == p.closurePos
    ensures r.0.fragmentPos == p.fragmentPos + 1
    ensures r.1 == At(At(p.closures.value, p.closurePos).fragments, r.0.fragmentPos)
    ensures r.0.history == p.history + [Frag(1)]
  {
    var closure := At(p.closures.value, p.closurePos);
    var pos := p.fragmentPos + 1;
    (p.(fragmentPos := pos, history := p.history + [Frag(1)]), At(closure.fragments, pos))
  }

  /** Undoing the entry `next_fragment` logged puts the cursors back. */
  lemma UndoNextFragment<C, F>(p: Parser<C, F>)
    requires CanIndexNextFragment(p)
    ensures var q := NextFragment(p).0;
            UndoAll(q.Here(), q.history[|p.history|..]) == p.Here()
  {
    var q := NextFragment(p).0;
    assert q.history[|p.history|..] == [Frag(1)];
  }

  /** `fragment_available`: false whenever no closure follows the current one;
      otherwise whether the current closure has a fragment after the cursor.
      The lookup of the current closure uses Python indexing, so a closure
      cursor of -1 consults the last closure. */
  function FragmentAvailable<C, F>(p: Parser<C, F>): (b: bool)
    requires p.closures.Some? && (ClosureAvailable(p) ==> InRange(p.Count(), p.closurePos))
    ensures b ==> ClosureAvailable(p)
    ensures WellFormed(p) && ClosureAvailable(p) ==> (b <==> CanIndexNextFragment(p))
  {
    && ClosureAvailable(p)
    && p.fragmentPos + 1 < |At(p.closures.value, p.closurePos).fragments|
  }

  // ---------------------------------------------------------------------------
  // Transactions
  // ---------------------------------------------------------------------------

  /** `commit`: drops the undo log; the current cursors become the checkpoint. */
  function Commit<C, F>(p: Parser<C, F>): (r: Parser<C, F>)
    ensures r.history == []
    ensures r.Here() == p.Here()
    ensures r.closures == p.closures && r.heads == p.heads
  {
    p.(history := [])
  }

  /** `rewind`: undoes the log most recent entry first, then commits. The net
      effect is that each cursor loses the total delta logged for it. */
  function Rewind<C, F>(p: Parser<C, F>): (r: Parser<C, F>)
    ensures r.history == []
    ensures r.closurePos == p.closurePos - ClosSum(p.history)
    ensures r.fragmentPos == p.fragmentPos - FragSum(p.history)
    ensures r.closures == p.closures && r.heads == p.heads
  {
    var k := UndoAll(p.Here(), p.history);
    UndoAllSubtractsSums(p.Here(), p.history);
    Commit(p.(closurePos := k.closurePos, fragmentPos := k.fragmentPos))
  }
}

=== FILE: history.dfy ===
/**
 The undo log. Every cursor move the parser makes since its last checkpoint is
 recorded as a tagged delta; rewinding walks the log from the most recent entry
 back to the oldest and subtracts each delta from the cursor its tag names.
 Because subtraction commutes, that reverse-order walk equals subtracting the
 per-tag sums of the deltas, which is what the lemmas here establish.
 */
module History {

  /** One log record: the fragment cursor or the closure cursor moved by `delta`. */
  datatype Entry = Frag(delta: int) | Clos(delta: int)

  /** The pair of cursors: the closure index and the fragment index within that closure. */
  datatype Cursor = Cursor(closurePos: int, fragmentPos: int)

  function FragDelta(e: Entry): int {
    if e.Frag? then e.delta else 0
  }

  function ClosDelta(e: Entry): int {
    if e.Clos? then e.delta else 0
  }

  /** Total movement of the fragment cursor recorded in `h`. */
  function FragSum(h: seq<Entry>): int {
    if |h| == 0 then 0 else FragDelta(h[0]) + FragSum(h[1..])
  }

  /** Total movement of the closure cursor recorded in `h`. */
  function ClosSum(h: seq<Entry>): int {
    if |h| == 0 then 0 else ClosDelta(h[0]) + ClosSum(h[1..])
  }

  /** Undoes one entry: subtracts its delta from the cursor its tag names and
      leaves the other cursor alone. */
  function Undo(k: Cursor, e: Entry): (r: Cursor)
    ensures e.Frag? ==> r.closurePos == k.closurePos && r.fragmentPos == k.fragmentPos - e.delta
    ensures e.Clos? ==> r.fragmentPos == k.fragmentPos && r.closurePos == k.closurePos - e.delta
  {
    match e
    case Frag(d) => k.(fragmentPos := k.fragmentPos - d)
    case Clos(d) => k.(closurePos := k.closurePos - d)
  }

  /** Undoes every entry of `h`, most recent first. */
  function UndoAll(k: Cursor, h: seq<Entry>): Cursor
    decreases |h|
  {
    if |h| == 0 then k else UndoAll(Undo(k, h[|h| - 1]), h[..|h| - 1])
  }

  /** Appending an entry adds its delta to the per-tag sums. */
  lemma {:induction false} SumsSnoc(h: seq<Entry>, e: Entry)
    ensures FragSum(h + [e]) == FragSum(h) + FragDelta(e)
    ensures ClosSum(h + [e]) == ClosSum(h) + ClosDelta(e)
  {
    if |h| == 0 {
      assert h + [e] == [e];
      assert [e][1..] == [];
    } else {
      assert (h + [e])[1..] == h[1..] + [e];
      SumsSnoc(h[1..], e);
    }
  }

  /** The per-tag sums of a concatenation are the sums of its parts. */
  lemma {:induction false} SumsAppend(a: seq<Entry>, b: seq<Entry>)
    ensures FragSum(a + b) == FragSum(a) + FragSum(b)
    ensures ClosSum(a + b) == ClosSum(a) + ClosSum(b)
  {
    if |a| == 0 {
      assert a + b == b;
    } else {
      assert (a + b)[1..] == a[1..] + b;
      SumsAppend(a[1..], b);
    }
  }

  /** Undoing the log most-recent-first subtracts each tag's total delta from its cursor. */
  lemma {:induction false} UndoAllSubtractsSums(k: Cursor, h: seq<Entry>)
    ensures UndoAll(k, h) == Cursor(k.closurePos - ClosSum(h), k.fragmentPos - FragSum(h))
    decreases |h|
  {
    if |h| > 0 {
      var last := h[|h| - 1];
      var init := h[..|h| - 1];
      assert h == init + [last];
      SumsSnoc(init, last);
      UndoAllSubtractsSums(Undo(k, last), init);
    }
  }

  /** Undoing `a + b` is undoing the newer part `b` first and then the older part `a`. */
  lemma UndoAllAppend(k: Cursor, a: seq<Entry>, b: seq<Entry>)
    ensures UndoAll(k, a + b) == UndoAll(UndoAll(k, b), a)
  {
    UndoAllSubtractsSums(k, a + b);
    UndoAllSubtractsSums(k, b);
    UndoAllSubtractsSums(UndoAll(k, b), a);
    SumsAppend(a, b);
  }

  /** Undoing the entries one closure step logs: the fragment reset alone, or the
      fragment reset followed by a unit closure step. */
  lemma UndoClosureStep(k: Cursor, d: int)
    ensures UndoAll(k, [Frag(d)]) == Cursor(k.closurePos, k.fragmentPos - d)
    ensures UndoAll(k, [Frag(d), Clos(1)]) == Cursor(k.closurePos - 1, k.fragmentPos - d)
  {
    var k1 := Undo(k, Clos(1));
    assert [Frag(d), Clos(1)][..1] == [Frag(d)];
    assert UndoAll(k, [Frag(d), Clos(1)]) == UndoAll(k1, [Frag(d)]);
    assert [Frag(d)][..0] == [];
    assert UndoAll(k1, [Frag(d)]) == UndoAll(Undo(k1, Frag(d)), []);
  }
}

=== FILE: scenarios.dfy ===
/**
 Concrete walks through the engine on two closures, C0 = [f0, f1] and C1 = [f2]:
 a rewind inside one closure, a rewind across a closure boundary (which needs
 the computed fragment delta), and the quirks of the unlogged first closure step
 and of Python's negative indexing before the first closure.
 */
module Scenarios {
  import opened Wrappers
  import opened Tokens
  import opened History
  import opened Engine
  import opened Checkpoint

  const C0: Closure<string, string> := Closure("C0", ["f0", "f1"])
  const C1: Closure<string, string> := Closure("C1", ["f2"])

  /** A parser right after `setup([C0, C1])`, whatever it held before. */
  function Started(p: Parser<string, string>): (r: Parser<string, string>)
    ensures r.closures == Some([C0, C1]) && r.Here() == Cursor(-1, -1)
  {
    Setup(p, [C0, C1])
  }

  /** After `next_closure`: C0 entered. */
  function InC0(p: Parser<string, string>): (r: Parser<string, string>)
    ensures r.closures == Some([C0, C1]) && r.Here() == Cursor(0, -1)
  {
    NextClosure(Started(p)).0
  }

  /** After one `next_fragment` in C0: on f0. */
  function OnF0(p: Parser<string, string>): (r: Parser<string, string>)
    ensures r.closures == Some([C0, C1]) && r.Here() == Cursor(0, 0)
  {
    NextFragment(InC0(p)).0
  }

  /** After a second `next_fragment` in C0: on f1. */
  function OnF1(p: Parser<string, string>): (r: Parser<string, string>)
    ensures r.closures == Some([C0, C1]) && r.Here() == Cursor(0, 1)
  {
    NextFragment(OnF0(p)).0
  }

  /** Committed on f1, then `next_closure`: C1 entered. */
  function InC1(p: Parser<string, string>): (r: Parser<string, string>)
    ensures r.closures == Some([C0, C1]) && r.Here() == Cursor(1, -1)
  {
    NextClosure(Commit(OnF1(p))).0
  }

  /** The first `next_closure` returns C0, and the two `next_fragment` calls
      after it return f0 and f1. */
  lemma WalkThroughC0(p: Parser<string, string>)
    ensures NextClosure(Started(p)).1 == C0
    ensures NextFragment(InC0(p)).1 == "f0"
    ensures NextFragment(OnF0(p)).1 == "f1"
  {
    var q := InC0(p);
    assert At(q.closures.value, q.closurePos) == C0;
    var r := OnF0(p);
    assert At(r.closures.value, r.closurePos) == C0;
  }

  // Each advance keeps the checkpoint; one lemma per step keeps the proofs small.

  lemma SetupCheckpointInC0(p: Parser<string, string>)
    ensures Tracks(InC0(p), Cursor(-1, -1))
  {
    SetupStartsCheckpoint(p, [C0, C1]);
    NextClosureKeepsCheckpoint(Started(p), Cursor(-1, -1));
  }

  lemma SetupCheckpointOnF0(p: Parser<string, string>)
    ensures Tracks(OnF0(p), Cursor(-1, -1))
  {
    SetupCheckpointInC0(p);
    NextFragmentKeepsCheckpoint(InC0(p), Cursor(-1, -1));
  }

  lemma SetupCheckpointOnF1(p: Parser<string, string>)
    ensures Tracks(OnF1(p), Cursor(-1, -1))
  {
    SetupCheckpointOnF0(p);
    NextFragmentKeepsCheckpoint(OnF0(p), Cursor(-1, -1));
  }

  lemma CommittedCheckpointInC1(p: Parser<string, string>)
    ensures Tracks(InC1(p), Cursor(0, 1))
  {
    CommitStartsCheckpoint(OnF1(p));
    NextClosureKeepsCheckpoint(Commit(OnF1(p)), Cursor(0, 1));
  }

  /** Two fragments into C0, `rewind` goes back to before f0, and the next
      `next_fragment` returns f0 again. The closure cursor comes back as 0, not
      as the -1 `setup` left, because the first closure step is never logged. */
  lemma RewindWithinClosure(p: Parser<string, string>)
    ensures Rewind(OnF1(p)).Here() == Cursor(0, -1)
    ensures CanIndexNextFragment(Rewind(OnF1(p))) && NextFragment(Rewind(OnF1(p))).1 == "f0"
  {
    SetupCheckpointOnF1(p);
    RewindReturnsToCheckpoint(OnF1(p), Cursor(-1, -1));
    var r := Rewind(OnF1(p));
    assert At(r.closures.value, r.closurePos) == C0;
  }

  /** Committed at (0, 1), one step into C1, `rewind` returns to (0, 1): the log
      holds Frag(-2) for the fragment reset, so both consumed fragments of C0
      are restored, not just one. */
  lemma RewindAcrossClosures(p: Parser<string, string>)
    ensures NextClosure(Commit(OnF1(p))).1 == C1
    ensures InC1(p).history == [Frag(-2), Clos(1)]
    ensures CanIndexNextFragment(InC1(p)) && NextFragment(InC1(p)).1 == "f2"
    ensures NextFragment(InC1(p)).0.Here() == Cursor(1, 0)
    ensures Rewind(NextFragment(InC1(p)).0).Here() == Cursor(0, 1)
  {
    CommittedCheckpointInC1(p);
    NextFragmentKeepsCheckpoint(InC1(p), Cursor(0, 1));
    RewindReturnsToCheckpoint(NextFragment(InC1(p)).0, Cursor(0, 1));
  }

  /** The same transition as `next_closure`, but logging the fragment reset as
      a unit step back, `Frag(-1)`, instead of the computed delta. */
  function UnitDeltaNextClosure<C, F>(p: Parser<C, F>): (r: Parser<C, F>)
    requires CanIndexNextClosure(p)
    ensures r.Here() == NextClosure(p).0.Here()
    ensures |p.history| < |r.history| && r.history[..|p.history|] == p.history
  {
    var pos := p.closurePos + 1;
    var logged := p.history + [Frag(-1)];
    p.(closurePos := pos, fragmentPos := -1, history := if pos != 0 then logged + [Clos(1)] else logged)
  }

  /** Why `next_closure` logs a computed delta: with a unit delta, undoing the
      step lands on fragment cursor 0 from every position, so it gives the old
      cursor back only when that was 0. */
  lemma UnitDeltaLosesFragments<C, F>(p: Parser<C, F>)
    requires CanIndexNextClosure(p)
    ensures var q := UnitDeltaNextClosure(p);
            var back := UndoAll(q.Here(), q.history[|p.history|..]);
            back.fragmentPos == 0
  {
    var q := UnitDeltaNextClosure(p);
    if q.closurePos != 0 {
      assert q.history[|p.history|..] == [Frag(-1), Clos(1)];
    } else {
      assert q.history[|p.history|..] == [Frag(-1)];
    }
    UndoClosureStep(q.Here(), -1);
  }

  /** On the scenario above: rewinding the unit-delta log from (1, 0) lands on
      (0, 0), while the real log lands on (0, 1). */
  lemma UnitDeltaInScenario(p: Parser<string, string>)
    ensures var q := NextFragment(UnitDeltaNextClosure(Commit(OnF1(p)))).0;
            Rewind(q).Here() == Cursor(0, 0)
  {
    var s0 := Commit(OnF1(p));
    var q0 := UnitDeltaNextClosure(s0);
    UnitDeltaLosesFragments(s0);
    assert q0.history == [Frag(-1), Clos(1)];
    assert q0.Here() == Cursor(1, -1);
    var q := NextFragment(q0).0;
    assert q.history == [Frag(-1), Clos(1), Frag(1)];
    assert q.Here() == Cursor(1, 0);
    SumsSnoc([Frag(-1)], Clos(1));
    SumsSnoc([Frag(-1), Clos(1)], Frag(1));
    assert [Frag(-1)] + [Clos(1)] == [Frag(-1), Clos(1)];
    assert [Frag(-1), Clos(1)] + [Frag(1)] == q.history;
  }

  /** Before any closure is entered, `next_fragment` reads from the last closure
      (Python's index -1), so it returns f2 although C0 is the first closure;
      `fragment_available` agrees, looking at C1 as well. */
  lemma NextFragmentBeforeFirstClosure(p: Parser<string, string>)
    ensures CanIndexNextFragment(Started(p)) && NextFragment(Started(p)).1 == "f2"
    ensures FragmentAvailable(Started(p))
  {
  }
}

=== FILE: tokens.dfy ===
/**
 The token hierarchy the parser walks: an ordered sequence of closures, each
 holding an ordered sequence of fragments. Display values are opaque type
 parameters. The module also models Python's list indexing, which accepts a
 negative index and counts it from the end of the list.
 */
module Tokens {

  /** A closure: its display value and the fragments it groups, in order. */
  datatype Closure<C, F> = Closure(value: C, fragments: seq<F>)

  /** Python's `xs[i]` on a list of length n succeeds exactly when -n <= i < n;
      any other index raises IndexError. */
  predicate InRange(n: int, i: int) {
    -n <= i < n
  }

  /** The position a Python index refers to: a negative index counts back from the end. */
  function Position(n: int, i: int): (k: nat)
    requires InRange(n, i)
    ensures k < n
    ensures k == i || k == n + i
  {
    if i < 0 then n + i else i
  }

  /** Python's `s[i]`. */
  function At<T>(s: seq<T>, i: int): T
    requires InRange(|s|, i)
  {
    s[Position(|s|, i)]
  }
}

=== FILE: wrappers.dfy ===
/** A value that may be absent. */
module Wrappers {

  datatype Option<T> = None | Some(value: T)
}
